=== FILE: README.md ===
# Yoga lesson builder — Dafny model

This project models the logic in `main.py` of a command-line yoga session
generator. Given a week of the course and a time budget, the program picks that
week's schedule file. It gives every asana (pose) a duration sampled between the
pose's bounds. It then builds a lesson that keeps the closing pose, visits the
other poses in random order, and accepts them while they fit the budget. The
accepted poses are kept in progression order and stretched or shrunk so the
lesson lasts exactly the budget. Each duration is announced as text such as
"2 minutes and 5 seconds".

Modules, one per part of the program:

- `Asanas` (`asana.dfy`): the asana record, its sampled per-side time, and the
  total time (twice the per-side time for two-sided poses).
- `Lessons` (`lesson.dfy`): `generate_lesson` and `adjust_times`. The random
  visitation order is an input permutation `order` of `0 .. n-2`. `order[0]` is
  the first index `pop()` takes off the shuffled list.
- `Clock` (`clock.dfy`): `standardize_time`, and a reader that turns its text
  back into seconds by reading its words.
- `Schedule` (`schedule.dfy`): choosing the `weekly_A_B.json` file whose
  inclusive week range holds the requested week.
- `Text` (`text.dfy`): `str.split` on one separator character, and joining the
  pieces again.
- `Rounding` (`rounding.dfy`): Python's `round`, which sends ties to the even
  neighbour.
- `Decimal` (`decimal.dfy`): Python's `str(int)` and `int(str)` on decimal text.
- `Wrappers` (`wrappers.dfy`): `Option` and `Result`.

Times are Dafny `real`s. The lesson time is an int or a float in the program:
the default is the integer `30 * 60` (main.py:42), and a time given on the
command line is `float(...) * 60` (main.py:45). The per-side times become floats
once rescaled. Every exactness claim, such as "the
rescaled lesson sums to the budget", holds over the reals. The program's
floating-point arithmetic only approximates it.

The program's exceptions are modelled as error values:

- An empty candidate list raises IndexError at line 152. Here it is
  `Failure(NoCandidates)`.
- A rescale with nothing elapsed but a non-zero budget raises
  ZeroDivisionError at line 177. Here it is `Failure(DivisionByZero)`.
- A schedule name on which `int()` raises ValueError, or whose test reaches
  `weeks[1]` without a second piece and raises IndexError, is `Malformed(name)`.
  The chained comparison at line 61 looks at `weeks[1]` only when
  `weeks[0] <= week`, so a one-piece name such as `weekly_10.json` is passed
  over for any week before 10.

## Model

| member | source | states |
|---|---|---|
| Rounding.RoundHalfEven | main.py:93-94 | the rounded value is within 1/2 of the sample, and is even when the sample lies exactly halfway |
| Rounding.RoundShiftEven | main.py:138-139 | shifting a value by an even integer shifts its rounding by the same amount, so rounding the remainder after whole minutes agrees with rounding the whole duration |
| Rounding.RoundWithinBounds | main.py:93-94 | a sample between two integer bounds rounds to an integer between the same bounds |
| Asanas.NewAsana | main.py:93-96 | a new asana keeps its description; its per-side time is the sample rounded to an integer; its total time is twice the per-side time for a two-sided pose and equal to it otherwise |
| Asanas.NewAsanaWithinBounds | main.py:90-94 | a sample drawn between the pose's two bounds, in either order, gives a per-side time between the rounded bounds, and between the bounds themselves when they are whole seconds |
| Asanas.NewAsanaBelowFractionalBound | main.py:90-94 | with bounds 10.2 and 10.4 the sample 10.3 gives 10 seconds per side, below the minimum |
| Rounding.RoundMonotone | main.py:93-94 | rounding never reverses the order of two values |
| Lessons.VisitIsGreedyPrefix | main.py:160-167 | the accepted poses are exactly the longest run at the front of the visitation order whose running sum, plus the starting elapsed time, stays within the budget; the next pose would overflow; the final elapsed time is the start plus the accepted times |
| Lessons.VisitStopsAtFirstOverflow | main.py:164-165 | once a pose overflows, later poses in the visitation order change nothing, however small they are |
| Lessons.Kept | main.py:168 | the slot filter yields the filled indices, strictly increasing, and an index appears exactly when its slot was filled |
| Lessons.SelectIsOrderedSubsequence | main.py:154-168 | the lesson is the candidates at strictly increasing indices; an index is kept exactly when it is the closing pose or was accepted; no pose visited after the first overflow is kept |
| Lessons.SelectEndsWithClosingPose | main.py:152-156 | for every visitation order, the lesson is non-empty and ends with the last candidate |
| Lessons.SelectElapsedIsTotal | main.py:152-167 | before rescaling, the elapsed time equals the sum of the kept poses' times, even though it was summed in visitation order |
| Lessons.SelectWithinBudget | main.py:152-167 | when the closing pose alone fits the budget, the elapsed time is at most the budget |
| Lessons.SelectAllWhenEverythingFits | main.py:157-168 | with no negative times, when all candidates together fit the budget, every pose is accepted and the lesson is the whole candidate list |
| Lessons.SelectOnlyClosingPoseWhenItOverflows | main.py:152-168 | with no negative times, when the closing pose alone exceeds the budget, the lesson is just the closing pose with its own time |
| Lessons.SelectSingleCandidate | main.py:152-168 | with a single candidate, the lesson is exactly that candidate and the elapsed time is its time |
| Lessons.AdjustTimes | main.py:175-181 | rescaling keeps the same poses in the same order, and multiplies every pose's per-side and total time by the same factor, the budget over the elapsed time |
| Lessons.AdjustTimesFillsBudget | main.py:175-181 | when the times add up to the elapsed time, the rescaled times add up to exactly the budget |
| Lessons.AdjustTimesKeepsWellTimed | main.py:179-180 | rescaling keeps each total time equal to the per-side time once per side |
| Lessons.GenerateLesson | main.py:148-172 | the builder fails with an index error exactly when there are no candidates |
| Lessons.GenerateLessonFillsBudget | main.py:168-172 | a generated lesson lasts exactly the budget; it is left as selected when the elapsed time already equals the budget; it fails with a division by zero exactly when nothing elapsed and the budget is non-zero; it keeps the selected poses in order, ending with the closing pose |
| Lessons.GenerateLessonKeepsWellTimed | main.py:170-180 | if every candidate's total is its per-side time once per side, every pose of the generated lesson keeps that relation |
| Clock.SplitMinutes | main.py:138-142 | for durations of a minute or more, the minutes are at least one, the seconds are in 0..59, and minutes times 60 plus seconds is the rounded duration |
| Clock.StandardizeTimeShape | main.py:135-145 | under a minute the text is the rounded seconds followed by " seconds"; otherwise it gives the rounded duration's whole minutes, with "minute" singular exactly for one, followed by " and S seconds" exactly when the remainder S is non-zero |
| Clock.StandardizeTimeFromAMinute | main.py:136-145 | from a minute on, the text depends only on the duration rounded to whole seconds: it is that duration's whole minutes and leftover seconds, spoken |
| Clock.StandardizeTimeReadsBack | main.py:135-145 | reading the announced text back gives the duration rounded to whole seconds, so no information is lost |
| Clock.StandardizeTimeSaysSixtySeconds | main.py:136-137 | a duration of 59.75 seconds is announced as "60 seconds", while 60 seconds is "1 minute" |
| Clock.StandardizeTimeCarriedIsInMinutes | main.py:138-142 | the corrected announcement uses seconds alone only below a rounded minute; otherwise it uses minutes with a remainder below 60; it agrees with `standardize_time` everywhere else and reads back as the rounded duration |
| Decimal.IntToStringRoundTrip | main.py:60 | `int()` applied to the decimal text of an integer gives back that integer |
| Schedule.JsonFiles | main.py:57 | a name is kept exactly when it is in the listing and ends with ".json" |
| Schedule.JsonFilesAppend | main.py:57 | filtering a listing made of two parts gives the filtered first part followed by the filtered second part, so the kept names stay in listing order, duplicates included |
| Schedule.RemoveAll | main.py:59 | `replace(pat, '')` only drops characters: the result is no longer than the text and holds no character the text does not |
| Schedule.RemoveAllNoOccurrence | main.py:59 | `replace(pat, '')` leaves a text in which `pat` occurs nowhere unchanged |
| Schedule.RemoveAllFirstOccurrence | main.py:59 | `replace(pat, '')` keeps everything before the leftmost occurrence of `pat`, drops that occurrence, and goes on with the rest; with the previous row this determines the result on every text |
| Schedule.RemoveAllLeading | main.py:59 | removing a prefix whose first character does not occur in the rest leaves exactly the rest |
| Schedule.RemoveAllTrailing | main.py:59 | removing a suffix whose first character does not occur before it leaves exactly the text before it |
| Schedule.StemOfStemFileName | main.py:59 | stripping "weekly_" and ".json" from `weekly_<stem>.json` gives back the stem when it holds no 'w' and no '.' |
| Schedule.TestWeeks | main.py:61 | the chained test loads the name exactly when there are at least two weeks and the first two enclose the week; it raises exactly when there is one week, at or before the requested week; otherwise the name is passed over |
| Schedule.ParseAll | main.py:60 | either every piece reads as an integer and the result lists them in order, or some piece does not read |
| Text.SplitJoin | main.py:60 | joining the pieces of a split with the separator gives back the text |
| Schedule.MatchScheduleIsFirstHit | main.py:58-66 | the lookup is decided by the first name not passed over: found if its test loads it, malformed if its test raises; "not found" exactly when every name is read and passed over |
| Schedule.WeeksOfFileName | main.py:59-60 | the name `weekly_A_B.json` ends with ".json" and reads back as the weeks [A, B] |
| Schedule.ExamineFileName | main.py:59-61 | a name `weekly_A_B.json` is loaded exactly when A <= week <= B and passed over otherwise |
| Schedule.ExamineSingleWeekFileName | main.py:59-61 | a name `weekly_A.json` reads back as the single week A; it is passed over when A is after the week, since the chained comparison stops before `weeks[1]`, and raises IndexError otherwise |
| Schedule.SingleWeekNamePassedOver | main.py:58-61 | for week 3, `weekly_10.json` is passed over and the following `weekly_1_5.json` is loaded, while `weekly_2.json` stops the loop as malformed |
| Schedule.FindScheduleAmongRanges | main.py:57-66 | when every file is named after its range, the lookup returns the first file whose inclusive range holds the week, and "not found" exactly when none does |

## Left out

- Command-line parsing and the weighted choice of an earlier week (main.py:37-53). This is argument handling plus floating-point probabilities.
- Directory listing, file reading, JSON decoding, the printed messages and `sys.exit` (main.py:27, 57, 62-66, 69-81, 176). Only the choice among a given list of names is modelled.
- Speech through `os.system`, image display, `Asana.begin`, `Asana.switch_sides` and `Lesson.begin` (main.py:102-132, 184-206). These are foreign calls and wall-clock pacing with no logic to state.
- NumPy randomness (main.py:93-94, 157-158). The uniform sample is the `sample` parameter and the shuffle is the `order` permutation.
- Floating-point behaviour: times are exact reals. Python's float `/`, `//`, `%` and `round` are taken at their mathematical values, so float rounding error is not modelled.
- Decimal.ParseInt: reads an optional sign followed by ASCII digits. It does not model the surrounding whitespace or the non-ASCII digits that Python's `int()` also accepts, because schedule names never contain them.
- Lessons.SelectAllWhenEverythingFits: assumes no pose time is negative. With negative times, a running sum can overflow before the full sum does. Negative times arise only from a bound below -0.5: a negative `minTime`, or a negative `maxTime` when the bounds are given in reverse order.
- Lessons.SelectOnlyClosingPoseWhenItOverflows: assumes no pose time is negative, for the same reason.
- Lessons.AdjustTimes: models the in-place update of the `Asana` objects (main.py:179-180) as new records. The two agree because main.py:30 builds a distinct object for every candidate, so no object appears twice in a lesson and none is scaled twice.

## Findings

| source | as written | input that shows it | evidently intended | confidence | as-written member | corrected member |
|---|---|---|---|---|---|---|
| main.py:136-142 | durations under 60 seconds take the seconds branch before rounding, so the carry of a rounded-up 60 into minutes never applies to them | `standardize_time(59.75)` returns "60 seconds" | "1 minute", as lines 140-142 do for 119.75 giving "2 minutes" | medium, not executed | Clock.StandardizeTimeSaysSixtySeconds | Clock.StandardizeTimeCarriedIsInMinutes |

=== FILE: asana.dfy ===
/**
 * Asana records: the static description read from an asana's JSON file and the
 * runtime instance that carries a sampled duration (class `Asana` in main.py).
 */
module Asanas {
  import opened Wrappers
  import opened Rounding

  /** The fields `Asana.__init__` copies out of the asana's JSON object. */
  datatype AsanaSpec = AsanaSpec(
    name: string,
    hindi: string,
    english: string,
    images: seq<string>,
    minTime: real,
    maxTime: real,
    doBothSides: bool,
    imgFile: Option<string>)

  /** A runtime asana: its description plus the seconds per side and in total. */
  datatype Asana = Asana(spec: AsanaSpec, timePerSide: real, totalTime: real)

  /** How many times the pose is held: once, or once per side. */
  function Sides(spec: AsanaSpec): (k: real)
    ensures k == 1.0 || k == 2.0
    ensures k == 2.0 <==> spec.doBothSides
  {
    if spec.doBothSides then 2.0 else 1.0
  }

  /** The total time is the per-side time once per side held. */
  ghost predicate WellTimed(a: Asana) {
    a.totalTime == Sides(a.spec) * a.timePerSide
  }

  /** The `time` property: what the lesson builder budgets for this asana. */
  function Time(a: Asana): real {
    a.totalTime
  }

  predicate IsIntegral(x: real) {
    x.Floor as real == x
  }

  /**
   * `Asana(asana_obj)` with the uniform sample between `minTime` and `maxTime`
   * passed in as `sample`: the per-side time is that sample rounded to an integer.
   */
  function NewAsana(spec: AsanaSpec, sample: real): (a: Asana)
    ensures a.spec == spec
    ensures WellTimed(a)
    ensures IsIntegral(a.timePerSide) && IsRoundHalfEven(sample, a.timePerSide.Floor)
    ensures spec.doBothSides ==> a.totalTime == 2.0 * a.timePerSide
    ensures !spec.doBothSides ==> a.totalTime == a.timePerSide
  {
    var perSide := RoundHalfEven(sample) as real;
    Asana(spec, perSide, if spec.doBothSides then 2.0 * perSide else perSide)
  }

  function Min(x: real, y: real): real {
    if x <= y then x else y
  }

  function Max(x: real, y: real): real {
    if x <= y then y else x
  }

  /**
   * A sample drawn between the asana's bounds (`np.random.uniform` takes them in
   * either order) gives a per-side time between the rounded bounds, and between the
   * bounds themselves when they are whole seconds.
   */
  lemma NewAsanaWithinBounds(spec: AsanaSpec, sample: real)
    requires spec.minTime <= sample <= spec.maxTime || spec.maxTime <= sample <= spec.minTime
    ensures var lo, hi := Min(spec.minTime, spec.maxTime), Max(spec.minTime, spec.maxTime);
      && RoundHalfEven(lo) as real <= NewAsana(spec, sample).timePerSide <= RoundHalfEven(hi) as real
      && (IsIntegral(lo) && IsIntegral(hi) ==> lo <= NewAsana(spec, sample).timePerSide <= hi)
  {
    var lo, hi := Min(spec.minTime, spec.maxTime), Max(spec.minTime, spec.maxTime);
    RoundMonotone(lo, sample);
    RoundMonotone(sample, hi);
    if IsIntegral(lo) && IsIntegral(hi) {
      RoundWithinBounds(lo.Floor, hi.Floor, sample);
    }
  }

  /** With bounds that are not whole seconds, the rounded time can fall outside them: 10.3 between 10.2 and 10.4 gives 10. */
  lemma NewAsanaBelowFractionalBound(spec: AsanaSpec)
    requires spec.minTime == 10.2 && spec.maxTime == 10.4
    ensures NewAsana(spec, 10.3).timePerSide == 10.0 < spec.minTime
  {
    assert IsRoundHalfEven(10.3, 10);
    RoundHalfEvenUnique(10.3, 10);
  }
}

=== FILE: clock.dfy ===
/**
 * `standardize_time`: how a duration in seconds is spoken and printed,
 * e.g. "45 seconds", "1 minute", "2 minutes and 5 seconds".
 */
module Clock {
  import opened Wrappers
  import opened Rounding
  import opened Decimal
  import opened Text

  datatype MinutesSeconds = MinutesSeconds(minutes: int, seconds: int)

  /**
   * Whole minutes by floor division, the remainder rounded to whole seconds, and a
   * remainder that rounds up to 60 carried into the minutes. The result is the
   * rounded duration written as minutes and seconds, with seconds below 60.
   */
  function SplitMinutes(t: real): (ms: MinutesSeconds)
    requires t >= 60.0
    ensures ms.minutes >= 1 && 0 <= ms.seconds < 60
    ensures 60 * ms.minutes + ms.seconds == RoundHalfEven(t)
  {
    var minutes := (t / 60.0).Floor;
    var remainder := t - 60.0 * minutes as real;
    RoundShiftEven(remainder, 30 * minutes);
    RoundWithinBounds(0, 60, remainder);
    var seconds := RoundHalfEven(remainder);
    if seconds == 60 then MinutesSeconds(minutes + 1, 0) else MinutesSeconds(minutes, seconds)
  }

  function SecondsText(s: int): string {
    IntToString(s) + " seconds"
  }

  /** `minute%s`: plural unless there is exactly one minute. */
  function MinuteWord(m: int): string {
    if m == 1 then "minute" else "minutes"
  }

  /** " and S seconds", or nothing when S is zero. */
  function SecondsClause(s: int): string {
    if s == 0 then "" else " and " + SecondsText(s)
  }

  /** "M minute(s)" followed by the seconds clause. */
  function MinutesText(m: int, s: int): string {
    IntToString(m) + " " + MinuteWord(m) + SecondsClause(s)
  }

  /** `standardize_time(time_in_s)`. */
  function StandardizeTime(t: real): string
  {
    if t < 60.0 then SecondsText(RoundHalfEven(t))
    else
      var ms := SplitMinutes(t);
      MinutesText(ms.minutes, ms.seconds)
  }

  /** How `n` whole seconds are said once any full minutes are carried out of them. */
  function SpokenSeconds(n: int): string {
    if n < 60 then SecondsText(n) else MinutesText(n / 60, n % 60)
  }

  lemma DivModSixty(n: int, m: int, s: int)
    requires 60 * m + s == n && 0 <= s < 60
    ensures n / 60 == m && n % 60 == s
  {
  }

  /** From a minute on, the text depends only on the duration rounded to whole seconds. */
  lemma StandardizeTimeFromAMinute(t: real)
    requires t >= 60.0
    ensures RoundHalfEven(t) >= 60
    ensures StandardizeTime(t) == SpokenSeconds(RoundHalfEven(t))
  {
    var ms := SplitMinutes(t);
    DivModSixty(RoundHalfEven(t), ms.minutes, ms.seconds);
  }

  /**
   * Under a minute the text is the rounded number of seconds. From a minute on it
   * is the rounded duration's whole minutes, "minute" singular exactly for one
   * minute, followed by " and S seconds" exactly when S, the seconds left over, is
   * not zero.
   */
  lemma StandardizeTimeShape(t: real)
    ensures t < 60.0 ==> StandardizeTime(t) == IntToString(RoundHalfEven(t)) + " seconds"
    ensures t >= 60.0 ==>
      var n := RoundHalfEven(t);
      var m, s := n / 60, n % 60;
      StandardizeTime(t) ==
        IntToString(m) + " " + (if m == 1 then "minute" else "minutes")
        + (if s == 0 then "" else " and " + IntToString(s) + " seconds")
  {
    if t >= 60.0 {
      StandardizeTimeFromAMinute(t);
    }
  }

  // ---------------------------------------------------------------------------
  // Reading the text back

  predicate IsMinuteWord(w: string) {
    w == "minute" || w == "minutes"
  }

  /**
   * A listener's reading of a spoken duration, word by word: "N seconds",
   * "M minute(s)" and "M minute(s) and S seconds" name N, 60M and 60M + S
   * seconds; anything else is not a duration.
   */
  function ReadDuration(text: string): Option<int>
  {
    ReadWords(Split(text, ' '))
  }

  function ReadWords(w: seq<string>): Option<int>
  {
    if |w| == 2 && w[1] == "seconds" then ParseInt(w[0])
    else if |w| == 2 && IsMinuteWord(w[1]) then
      var m := ParseInt(w[0]);
      if m.Some? then Some(60 * m.value) else None
    else if |w| == 5 && IsMinuteWord(w[1]) && w[2] == "and" && w[4] == "seconds" then
      var m, s := ParseInt(w[0]), ParseInt(w[3]);
      if m.Some? && s.Some? then Some(60 * m.value + s.value) else None
    else None
  }

  lemma NoSpaceInNumber(i: int)
    ensures ' ' !in IntToString(i)
  {
    IntToStringChars(i);
  }

  /** Two words joined by a space split back into those two words. */
  lemma SplitTwoWords(a: string, b: string)
    requires ' ' !in a && ' ' !in b
    ensures Split(a + " " + b, ' ') == [a, b]
  {
    SplitAtSeparator(a, ' ', b);
    SplitWithoutSeparator(b, ' ');
  }

  lemma SplitSecondsText(n: int)
    ensures Split(SecondsText(n), ' ') == [IntToString(n), "seconds"]
  {
    NoSpaceInNumber(n);
    assert SecondsText(n) == IntToString(n) + " " + "seconds";
    SplitTwoWords(IntToString(n), "seconds");
  }

  /** The words of "M minute(s)" and of "M minute(s) and S seconds". */
  lemma SplitMinutesText(m: int, s: int)
    ensures Split(MinutesText(m, s), ' ') ==
      [IntToString(m), MinuteWord(m)] + (if s == 0 then [] else ["and", IntToString(s), "seconds"])
  {
    var number, unit := IntToString(m), MinuteWord(m);
    NoSpaceInNumber(m);
    if s == 0 {
      assert MinutesText(m, s) == number + " " + unit;
      SplitTwoWords(number, unit);
    } else {
      var seconds := SecondsText(s);
      var clause := "and" + " " + seconds;
      assert MinutesText(m, s) == number + " " + (unit + " " + clause);
      SplitAtSeparator(number, ' ', unit + " " + clause);
      SplitAtSeparator(unit, ' ', clause);
      SplitAtSeparator("and", ' ', seconds);
      SplitSecondsText(s);
    }
  }

  lemma ReadSecondsOnly(n: int)
    ensures ReadDuration(SecondsText(n)) == Some(n)
  {
    SplitSecondsText(n);
    IntToStringRoundTrip(n);
  }

  lemma ReadMinutesText(m: int, s: int)
    ensures ReadDuration(MinutesText(m, s)) == Some(60 * m + s)
  {
    SplitMinutesText(m, s);
    IntToStringRoundTrip(m);
    if s != 0 {
      IntToStringRoundTrip(s);
    }
  }

  lemma ReadSpokenSeconds(n: int)
    ensures ReadDuration(SpokenSeconds(n)) == Some(n)
  {
    if n < 60 {
      ReadSecondsOnly(n);
    } else {
      ReadMinutesText(n / 60, n % 60);
    }
  }

  /** The spoken text names the duration rounded to whole seconds: no information is lost. */
  lemma StandardizeTimeReadsBack(t: real)
    ensures ReadDuration(StandardizeTime(t)) == Some(RoundHalfEven(t))
  {
    if t < 60.0 {
      ReadSecondsOnly(RoundHalfEven(t));
    } else {
      StandardizeTimeFromAMinute(t);
      ReadSpokenSeconds(RoundHalfEven(t));
    }
  }

  // ---------------------------------------------------------------------------
  // Durations just under a minute

  /**
   * A duration below 60 that rounds up to 60 is announced as "60 seconds": the
   * carry into minutes only happens on the minutes branch.
   */
  lemma StandardizeTimeSaysSixtySeconds()
    ensures RoundHalfEven(59.75) == 60
    ensures StandardizeTime(59.75) == "60 seconds"
    ensures StandardizeTime(60.0) == "1 minute"
  {
    assert NatToString(60) == NatToString(6) + [DigitChar(0)];
    assert SplitMinutes(60.0) == MinutesSeconds(1, 0);
  }

  /** `standardize_time` with the minute carry applied to every rounded duration. */
  function StandardizeTimeCarried(t: real): string
  {
    SpokenSeconds(RoundHalfEven(t))
  }

  /**
   * Corrected behaviour: seconds alone are announced only for a rounded duration
   * under a minute, with minutes and a remainder below 60 otherwise; it agrees
   * with `standardize_time` wherever that does not say "60 seconds", and it still
   * reads back as the rounded duration.
   */
  lemma StandardizeTimeCarriedIsInMinutes(t: real)
    ensures var n := RoundHalfEven(t);
      && (n < 60 ==> StandardizeTimeCarried(t) == IntToString(n) + " seconds")
      && (n >= 60 ==> exists m, s :: m >= 1 && 0 <= s < 60 && 60 * m + s == n && StandardizeTimeCarried(t) == MinutesText(m, s))
      && (t >= 60.0 || n < 60 ==> StandardizeTimeCarried(t) == StandardizeTime(t))
      && ReadDuration(StandardizeTimeCarried(t)) == Some(n)
  {
    var n := RoundHalfEven(t);
    ReadSpokenSeconds(n);
    if n >= 60 {
      assert 60 * (n / 60) + n % 60 == n;
    }
    if t >= 60.0 {
      StandardizeTimeFromAMinute(t);
    }
  }
}

=== FILE: decimal.dfy ===
/**
 * Decimal text of integers as Python's `str(int)` writes it and `int(str)` reads it.
 */
module Decimal {
  import opened Wrappers

  predicate IsDigit(c: char) {
    '0' <= c <= '9'
  }

  predicate AllDigits(s: string) {
    forall i :: 0 <= i < |s| ==> IsDigit(s[i])
  }

  function DigitChar(d: nat): (c: char)
    requires d < 10
    ensures IsDigit(c)
  {
    ('0' as int + d) as char
  }

  function DigitValue(c: char): (d: nat)
    requires IsDigit(c)
    ensures d < 10
  {
    c as int - '0' as int
  }

  /** The number a string of digits denotes, most significant digit first. */
  function DigitsValue(s: string): nat
    requires AllDigits(s)
  {
    if |s| == 0 then 0 else DigitsValue(s[..|s| - 1]) * 10 + DigitValue(s[|s| - 1])
  }

  /** Shortest decimal text of a natural number (no leading zeros, "0" for zero). */
  function NatToString(n: nat): (s: string)
    ensures |s| > 0 && AllDigits(s)
    ensures |s| > 1 ==> s[0] != '0'
  {
    if n < 10 then [DigitChar(n)] else NatToString(n / 10) + [DigitChar(n % 10)]
  }

  /** `str(i)` for a Python integer. */
  function IntToString(i: int): (s: string)
    ensures |s| > 0
  {
    if i < 0 then "-" + NatToString(-i) else NatToString(i)
  }

  /** The text of an integer holds only digits and a minus sign. */
  lemma IntToStringChars(i: int)
    ensures forall c :: c in IntToString(i) ==> IsDigit(c) || c == '-'
  {
    var s := IntToString(i);
    if i < 0 {
      assert forall c :: c in s ==> c == '-' || c in s[1..];
    }
  }

  /**
   * `int(s)` for a Python string: an optional sign followed by at least one digit.
   * None stands for the ValueError Python raises on anything else.
   */
  function ParseInt(s: string): (r: Option<int>)
    ensures r.Some? ==> |s| > 0
  {
    if |s| > 0 && (s[0] == '-' || s[0] == '+') then
      var body := s[1..];
      if |body| > 0 && AllDigits(body) then
        var v: int := DigitsValue(body);
        Some(if s[0] == '-' then -v else v)
      else None
    else if |s| > 0 && AllDigits(s) then Some(DigitsValue(s))
    else None
  }

  lemma {:induction false} NatToStringRoundTrip(n: nat)
    ensures DigitsValue(NatToString(n)) == n
  {
    if n >= 10 {
      var s := NatToString(n);
      NatToStringRoundTrip(n / 10);
      assert s[..|s| - 1] == NatToString(n / 10);
    }
  }

  /** Reading back the text `str` writes gives the number written. */
  lemma IntToStringRoundTrip(i: int)
    ensures ParseInt(IntToString(i)) == Some(i)
  {
    if i < 0 {
      NatToStringRoundTrip(-i);
      assert IntToString(i)[1..] == NatToString(-i);
    } else {
      NatToStringRoundTrip(i);
    }
  }
}

=== FILE: lesson.dfy ===
/**
 * The time-budget lesson builder (`generate_lesson` and `adjust_times` in main.py).
 *
 * The closing pose (the last candidate) is always kept. The other candidates are
 * visited in a random order, passed in here as `order`: `order[0]` is the first
 * index visited, i.e. the first one `pop()` takes off the shuffled index list.
 * A visited candidate is accepted while it still fits the budget; the first one
 * that does not fit ends the visit. The accepted poses are returned in their
 * original progression order and then stretched or shrunk to fill the budget.
 */
module Lessons {
  import opened Wrappers
  import opened Asanas

  datatype LessonError =
    | NoCandidates    // `candidate_asanas[-1]` on an empty list raises IndexError
    | DivisionByZero  // `lesson_time / elapsed_time` with nothing elapsed

  /** Sum of the budgeted times, front to back. */
  function Total(xs: seq<Asana>): real
  {
    if |xs| == 0 then 0.0 else Time(xs[0]) + Total(xs[1..])
  }

  predicate InRange(ix: seq<int>, n: int) {
    forall j :: 0 <= j < |ix| ==> 0 <= ix[j] < n
  }

  predicate Distinct(ix: seq<int>) {
    forall j, l :: 0 <= j < l < |ix| ==> ix[j] != ix[l]
  }

  predicate Increasing(ix: seq<int>) {
    forall j, l :: 0 <= j < l < |ix| ==> ix[j] < ix[l]
  }

  /** `order` is a permutation of `0 .. m-1`: what `np.random.shuffle(range(m))` yields. */
  predicate IsVisitOrder(order: seq<int>, m: int) {
    && |order| == m
    && InRange(order, m)
    && Distinct(order)
    && (forall i :: 0 <= i < m ==> i in order)
  }

  function Range(n: nat): seq<int> {
    seq(n, i => i)
  }

  /** The candidates at the given indices, in the order the indices are listed. */
  function Gather(c: seq<Asana>, ix: seq<int>): seq<Asana>
    requires InRange(ix, |c|)
  {
    seq(|ix|, j requires 0 <= j < |ix| => c[ix[j]])
  }

  /** How far the visit got: how many visited poses were accepted, and the elapsed time then. */
  datatype Visit = Visit(accepted: nat, elapsed: real)

  /** The `while indices` loop of `generate_lesson`, starting from an elapsed time. */
  function VisitInOrder(c: seq<Asana>, order: seq<int>, elapsed: real, budget: real): (v: Visit)
    requires InRange(order, |c|)
    ensures v.accepted <= |order|
    decreases |order|
  {
    if |order| == 0 then Visit(0, elapsed)
    else
      var t := Time(c[order[0]]);
      if elapsed + t > budget then Visit(0, elapsed)
      else
        var rest := VisitInOrder(c, order[1..], elapsed + t, budget);
        Visit(rest.accepted + 1, rest.elapsed)
  }

  /**
   * The slot filter `[a for a in asanas if a is not None]`: the indices in `lo .. n-1`
   * whose slot was filled (those listed in `filled`), in increasing order.
   */
  function Kept(lo: int, n: int, filled: seq<int>): (ix: seq<int>)
    requires 0 <= lo <= n
    ensures InRange(ix, n) && Increasing(ix)
    ensures forall j :: 0 <= j < |ix| ==> lo <= ix[j]
    ensures forall i :: lo <= i < n ==> (i in ix <==> i in filled)
    decreases n - lo
  {
    if lo == n then []
    else (if lo in filled then [lo] else []) + Kept(lo + 1, n, filled)
  }

  /** What the builder decided before rescaling: the poses kept and the time they take. */
  datatype Selection = Selection(asanas: seq<Asana>, elapsed: real)

  /** The visit that starts from the closing pose's time. */
  function LessonVisit(c: seq<Asana>, order: seq<int>, lessonTime: real): (v: Visit)
    requires |c| > 0 && IsVisitOrder(order, |c| - 1)
    ensures v.accepted <= |order|
  {
    VisitInOrder(c, order, Time(c[|c| - 1]), lessonTime)
  }

  /** Indices of the poses in the lesson, in progression order. */
  function SelectedIndices(c: seq<Asana>, order: seq<int>, lessonTime: real): (ix: seq<int>)
    requires |c| > 0 && IsVisitOrder(order, |c| - 1)
    ensures InRange(ix, |c|)
  {
    var v := LessonVisit(c, order, lessonTime);
    Kept(0, |c|, order[..v.accepted] + [|c| - 1])
  }

  /** `generate_lesson` up to line 168: the kept poses and the elapsed time. */
  function Select(c: seq<Asana>, order: seq<int>, lessonTime: real): (s: Selection)
    requires |c| > 0 && IsVisitOrder(order, |c| - 1)
  {
    Selection(Gather(c, SelectedIndices(c, order, lessonTime)), LessonVisit(c, order, lessonTime).elapsed)
  }

  function Scale(a: Asana, factor: real): Asana {
    a.(timePerSide := a.timePerSide * factor, totalTime := a.totalTime * factor)
  }

  /** `adjust_times`: every pose's times are multiplied by `lessonTime / elapsed`. */
  function AdjustTimes(asanas: seq<Asana>, lessonTime: real, elapsed: real): (r: seq<Asana>)
    requires elapsed != 0.0
    ensures |r| == |asanas|
    ensures forall i :: 0 <= i < |r| ==>
      && r[i].spec == asanas[i].spec
      && r[i].timePerSide * elapsed == asanas[i].timePerSide * lessonTime
      && r[i].totalTime * elapsed == asanas[i].totalTime * lessonTime
  {
    var factor := lessonTime / elapsed;
    seq(|asanas|, i requires 0 <= i < |asanas| => Scale(asanas[i], factor))
  }

  /** `generate_lesson`: select within the budget, then rescale unless already exact. */
  function GenerateLesson(c: seq<Asana>, order: seq<int>, lessonTime: real): (r: Result<seq<Asana>, LessonError>)
    requires |c| > 0 ==> IsVisitOrder(order, |c| - 1)
    ensures r == Failure(NoCandidates) <==> |c| == 0
  {
    if |c| == 0 then Failure(NoCandidates)
    else
      var s := Select(c, order, lessonTime);
      if s.elapsed == lessonTime then Success(s.asanas)
      else if s.elapsed == 0.0 then Failure(DivisionByZero)
      else Success(AdjustTimes(s.asanas, lessonTime, s.elapsed))
  }

  // ---------------------------------------------------------------------------
  // Sums

  lemma {:induction false} TotalAppend(a: seq<Asana>, b: seq<Asana>)
    ensures Total(a + b) == Total(a) + Total(b)
  {
    if |a| > 0 {
      assert (a + b)[1..] == a[1..] + b;
      TotalAppend(a[1..], b);
    } else {
      assert a + b == b;
    }
  }

  lemma {:induction false} TotalNonNegative(a: seq<Asana>)
    requires forall i :: 0 <= i < |a| ==> Time(a[i]) >= 0.0
    ensures Total(a) >= 0.0
  {
    if |a| > 0 {
      TotalNonNegative(a[1..]);
    }
  }

  lemma GatherAppend(c: seq<Asana>, a: seq<int>, b: seq<int>)
    requires InRange(a, |c|) && InRange(b, |c|)
    ensures InRange(a + b, |c|)
    ensures Gather(c, a + b) == Gather(c, a) + Gather(c, b)
  {
  }

  lemma DistinctCount(a: seq<int>, x: int)
    requires Distinct(a)
    ensures multiset(a)[x] == if x in a then 1 else 0
  {
    if |a| > 0 {
      assert a == [a[0]] + a[1..];
      DistinctCount(a[1..], x);
    }
  }

  /** Two duplicate-free index lists with the same members are permutations of each other. */
  lemma DistinctSameMembers(a: seq<int>, b: seq<int>)
    requires Distinct(a) && Distinct(b)
    requires forall x :: x in a <==> x in b
    ensures multiset(a) == multiset(b)
  {
    forall x
      ensures multiset(a)[x] == multiset(b)[x]
    {
      DistinctCount(a, x);
      DistinctCount(b, x);
    }
  }

  lemma MultisetRemoveFirst(a: seq<int>, b: seq<int>, i: nat)
    requires |a| > 0 && i < |b| && b[i] == a[0]
    requires multiset(a) == multiset(b)
    ensures multiset(a[1..]) == multiset(b[..i] + b[i + 1..])
  {
    assert a == [a[0]] + a[1..];
    assert b == b[..i] + [b[i]] + b[i + 1..];
    assert multiset(a[1..]) == multiset(a) - multiset{a[0]};
    assert multiset(b[..i] + b[i + 1..]) == multiset(b) - multiset{b[i]};
  }

  lemma TotalGatherRemove(c: seq<Asana>, b: seq<int>, i: nat)
    requires InRange(b, |c|) && i < |b|
    ensures InRange(b[..i] + b[i + 1..], |c|)
    ensures Total(Gather(c, b)) == Time(c[b[i]]) + Total(Gather(c, b[..i] + b[i + 1..]))
  {
    var x, y := Gather(c, b[..i]), Gather(c, b[i + 1..]);
    assert Gather(c, b) == x + [c[b[i]]] + y;
    assert Gather(c, b[..i] + b[i + 1..]) == x + y;
    TotalAppend(x + [c[b[i]]], y);
    TotalAppend(x, [c[b[i]]]);
    TotalAppend(x, y);
  }

  /** The total time of a set of poses does not depend on the order they are listed in. */
  lemma {:induction false} TotalGatherPermutation(c: seq<Asana>, a: seq<int>, b: seq<int>)
    requires InRange(a, |c|) && InRange(b, |c|)
    requires multiset(a) == multiset(b)
    ensures Total(Gather(c, a)) == Total(Gather(c, b))
    decreases |a|
  {
    if |a| == 0 {
      assert |multiset(b)| == 0;
    } else {
      assert a[0] in multiset(b);
      var i :| 0 <= i < |b| && b[i] == a[0];
      MultisetRemoveFirst(a, b, i);
      TotalGatherPermutation(c, a[1..], b[..i] + b[i + 1..]);
      TotalGatherRemove(c, b, i);
      assert Gather(c, a)[1..] == Gather(c, a[1..]);
    }
  }

  lemma GatherPrefix(c: seq<Asana>, order: seq<int>, j: nat)
    requires InRange(order, |c|) && 0 < j <= |order|
    ensures Total(Gather(c, order[..j])) == Time(c[order[0]]) + Total(Gather(c, order[1..][..j - 1]))
  {
    assert Gather(c, order[..j])[1..] == Gather(c, order[1..][..j - 1]);
  }

  // ---------------------------------------------------------------------------
  // Selection

  /**
   * The visit accepts exactly the longest run at the front of the visitation order
   * whose running sum still fits: every shorter run fits, and the next pose would
   * not. `elapsed` then equals the start plus the accepted poses' times.
   */
  lemma {:induction false} VisitIsGreedyPrefix(c: seq<Asana>, order: seq<int>, elapsed: real, budget: real)
    requires InRange(order, |c|)
    ensures var v := VisitInOrder(c, order, elapsed, budget);
      && v.elapsed == elapsed + Total(Gather(c, order[..v.accepted]))
      && (forall j :: 0 < j <= v.accepted ==> elapsed + Total(Gather(c, order[..j])) <= budget)
      && (v.accepted < |order| ==> elapsed + Total(Gather(c, order[..v.accepted + 1])) > budget)
    decreases |order|
  {
    var v := VisitInOrder(c, order, elapsed, budget);
    if |order| == 0 {
      assert Gather(c, order[..0]) == [];
    } else {
      var t := Time(c[order[0]]);
      if elapsed + t > budget {
        assert Gather(c, order[..0]) == [];
        GatherPrefix(c, order, 1);
        assert Gather(c, order[1..][..0]) == [];
      } else {
        var rest := VisitInOrder(c, order[1..], elapsed + t, budget);
        VisitIsGreedyPrefix(c, order[1..], elapsed + t, budget);
        GatherPrefix(c, order, v.accepted);
        forall j | 0 < j <= v.accepted
          ensures elapsed + Total(Gather(c, order[..j])) <= budget
        {
          GatherPrefix(c, order, j);
          if j == 1 {
            assert Gather(c, order[1..][..0]) == [];
          }
        }
        if v.accepted < |order| {
          GatherPrefix(c, order, v.accepted + 1);
        }
      }
    }
  }

  /** The visit never runs past the first pose that does not fit. */
  lemma VisitStopsAtFirstOverflow(c: seq<Asana>, order: seq<int>, elapsed: real, budget: real)
    requires InRange(order, |c|)
    ensures var v := VisitInOrder(c, order, elapsed, budget);
      v.accepted < |order| ==> forall j :: v.accepted < j <= |order| ==> VisitInOrder(c, order[..j], elapsed, budget) == v
  {
    var v := VisitInOrder(c, order, elapsed, budget);
    if v.accepted < |order| {
      forall j | v.accepted < j <= |order|
        ensures VisitInOrder(c, order[..j], elapsed, budget) == v
      {
        VisitPrefixAgrees(c, order, j, elapsed, budget);
      }
    }
  }

  lemma {:induction false} VisitPrefixAgrees(c: seq<Asana>, order: seq<int>, j: nat, elapsed: real, budget: real)
    requires InRange(order, |c|)
    requires VisitInOrder(c, order, elapsed, budget).accepted < j <= |order|
    ensures VisitInOrder(c, order[..j], elapsed, budget) == VisitInOrder(c, order, elapsed, budget)
    decreases |order|
  {
    var t := Time(c[order[0]]);
    if elapsed + t <= budget {
      assert order[..j][1..] == order[1..][..j - 1];
      VisitPrefixAgrees(c, order[1..], j - 1, elapsed + t, budget);
    }
  }

  lemma {:induction false} KeptEverything(lo: int, n: int, filled: seq<int>)
    requires 0 <= lo <= n
    requires forall i :: lo <= i < n ==> i in filled
    ensures Kept(lo, n, filled) == seq(n - lo, j => lo + j)
    decreases n - lo
  {
    if lo < n {
      KeptEverything(lo + 1, n, filled);
      assert Kept(lo, n, filled) == [lo] + Kept(lo + 1, n, filled);
      assert seq(n - lo, j => lo + j) == [lo] + seq(n - (lo + 1), j => lo + 1 + j);
    }
  }

  lemma {:induction false} KeptOnlyClosing(lo: int, n: int)
    requires 0 <= lo < n
    ensures Kept(lo, n, [n - 1]) == [n - 1]
    decreases n - lo
  {
    if lo < n - 1 {
      KeptOnlyClosing(lo + 1, n);
    } else {
      assert Kept(n, n, [n - 1]) == [];
    }
  }

  lemma IncreasingIsDistinct(ix: seq<int>)
    requires Increasing(ix)
    ensures Distinct(ix)
  {
  }

  /** The poses a lesson keeps: those accepted during the visit, and the closing pose. */
  lemma SelectIsOrderedSubsequence(c: seq<Asana>, order: seq<int>, lessonTime: real)
    requires |c| > 0 && IsVisitOrder(order, |c| - 1)
    ensures var ix := SelectedIndices(c, order, lessonTime);
      var k := LessonVisit(c, order, lessonTime).accepted;
      && Increasing(ix)
      && Select(c, order, lessonTime).asanas == Gather(c, ix)
      && (forall i :: 0 <= i < |c| ==> (i in ix <==> i == |c| - 1 || i in order[..k]))
      && (forall j :: k <= j < |order| ==> order[j] !in ix)
  {
  }

  /** Whatever the visitation order, the lesson ends with the closing pose. */
  lemma SelectEndsWithClosingPose(c: seq<Asana>, order: seq<int>, lessonTime: real)
    requires |c| > 0 && IsVisitOrder(order, |c| - 1)
    ensures var s := Select(c, order, lessonTime);
      |s.asanas| > 0 && s.asanas[|s.asanas| - 1] == c[|c| - 1]
  {
    var ix := SelectedIndices(c, order, lessonTime);
    var k := LessonVisit(c, order, lessonTime).accepted;
    assert |c| - 1 in order[..k] + [|c| - 1];
    assert |c| - 1 in ix;
    var j :| 0 <= j < |ix| && ix[j] == |c| - 1;
    if j < |ix| - 1 {
      assert false;
    }
  }

  /** Before rescaling, the elapsed time is exactly the total time of the kept poses. */
  lemma SelectElapsedIsTotal(c: seq<Asana>, order: seq<int>, lessonTime: real)
    requires |c| > 0 && IsVisitOrder(order, |c| - 1)
    ensures Select(c, order, lessonTime).elapsed == Total(Select(c, order, lessonTime).asanas)
  {
    var last := |c| - 1;
    var k := LessonVisit(c, order, lessonTime).accepted;
    var filled := order[..k] + [last];
    var ix := SelectedIndices(c, order, lessonTime);
    VisitIsGreedyPrefix(c, order, Time(c[last]), lessonTime);
    GatherAppend(c, order[..k], [last]);
    TotalAppend(Gather(c, order[..k]), Gather(c, [last]));
    assert Total(Gather(c, [last])) == Time(c[last]);
    assert Distinct(filled) by {
      forall j, l | 0 <= j < l < |filled|
        ensures filled[j] != filled[l]
      {
        if l < k {
          assert filled[j] == order[j] && filled[l] == order[l];
        }
      }
    }
    IncreasingIsDistinct(ix);
    DistinctSameMembers(ix, filled);
    TotalGatherPermutation(c, ix, filled);
  }

  /** When the closing pose alone fits the budget, the whole selection fits it. */
  lemma SelectWithinBudget(c: seq<Asana>, order: seq<int>, lessonTime: real)
    requires |c| > 0 && IsVisitOrder(order, |c| - 1)
    requires Time(c[|c| - 1]) <= lessonTime
    ensures Select(c, order, lessonTime).elapsed <= lessonTime
  {
    var k := LessonVisit(c, order, lessonTime).accepted;
    VisitIsGreedyPrefix(c, order, Time(c[|c| - 1]), lessonTime);
    if k == 0 {
      assert Gather(c, order[..0]) == [];
    }
  }

  /** A visitation order followed by the closing pose lists every candidate index once. */
  lemma VisitOrderWithClosing(order: seq<int>, last: nat)
    requires IsVisitOrder(order, last)
    ensures multiset(Range(last + 1)) == multiset(order + [last])
  {
    var full := order + [last];
    assert Distinct(full) by {
      forall j, l | 0 <= j < l < |full|
        ensures full[j] != full[l]
      {
        if l < |order| {
          assert full[j] == order[j] && full[l] == order[l];
        }
      }
    }
    forall x
      ensures x in Range(last + 1) <==> x in full
    {
      if 0 <= x < last {
        assert x in order;
      }
      if 0 <= x <= last {
        assert Range(last + 1)[x] == x;
      }
    }
    DistinctSameMembers(Range(last + 1), full);
  }

  lemma VisitOrderCoversCandidates(c: seq<Asana>, order: seq<int>)
    requires |c| > 0 && IsVisitOrder(order, |c| - 1)
    ensures Total(c) == Time(c[|c| - 1]) + Total(Gather(c, order))
  {
    var last := |c| - 1;
    assert Gather(c, Range(|c|)) == c;
    GatherAppend(c, order, [last]);
    TotalAppend(Gather(c, order), Gather(c, [last]));
    assert Total(Gather(c, [last])) == Time(c[last]);
    VisitOrderWithClosing(order, last);
    TotalGatherPermutation(c, Range(|c|), order + [last]);
  }

  lemma PrefixTotalAtMostTotal(c: seq<Asana>, order: seq<int>, j: nat)
    requires InRange(order, |c|) && j <= |order|
    requires forall i :: 0 <= i < |c| ==> Time(c[i]) >= 0.0
    ensures Total(Gather(c, order[..j])) <= Total(Gather(c, order))
  {
    var rest := Gather(c, order[j..]);
    assert order == order[..j] + order[j..];
    GatherAppend(c, order[..j], order[j..]);
    TotalAppend(Gather(c, order[..j]), rest);
    TotalNonNegative(rest);
  }

  lemma VisitAcceptsAllWhenEverythingFits(c: seq<Asana>, order: seq<int>, lessonTime: real)
    requires |c| > 0 && IsVisitOrder(order, |c| - 1)
    requires forall i :: 0 <= i < |c| ==> Time(c[i]) >= 0.0
    requires Total(c) <= lessonTime
    ensures LessonVisit(c, order, lessonTime).accepted == |order|
  {
    var k := LessonVisit(c, order, lessonTime).accepted;
    VisitIsGreedyPrefix(c, order, Time(c[|c| - 1]), lessonTime);
    VisitOrderCoversCandidates(c, order);
    if k < |order| {
      PrefixTotalAtMostTotal(c, order, k + 1);
      assert false;
    }
  }

  /** With no negative times, a budget that covers every candidate keeps every candidate. */
  lemma SelectAllWhenEverythingFits(c: seq<Asana>, order: seq<int>, lessonTime: real)
    requires |c| > 0 && IsVisitOrder(order, |c| - 1)
    requires forall i :: 0 <= i < |c| ==> Time(c[i]) >= 0.0
    requires Total(c) <= lessonTime
    ensures LessonVisit(c, order, lessonTime).accepted == |order|
    ensures Select(c, order, lessonTime).asanas == c
  {
    var last := |c| - 1;
    VisitAcceptsAllWhenEverythingFits(c, order, lessonTime);
    var filled := order[..|order|] + [last];
    assert order[..|order|] == order;
    forall i | 0 <= i < |c|
      ensures i in filled
    {
      if i < last {
        assert i in order;
      } else {
        assert filled[last] == i;
      }
    }
    KeptEverything(0, |c|, filled);
    assert Gather(c, seq(|c|, j => 0 + j)) == c;
  }

  /** With no negative times, a closing pose that alone overflows the budget is all the lesson keeps. */
  lemma SelectOnlyClosingPoseWhenItOverflows(c: seq<Asana>, order: seq<int>, lessonTime: real)
    requires |c| > 0 && IsVisitOrder(order, |c| - 1)
    requires forall i :: 0 <= i < |c| ==> Time(c[i]) >= 0.0
    requires Time(c[|c| - 1]) > lessonTime
    ensures Select(c, order, lessonTime) == Selection([c[|c| - 1]], Time(c[|c| - 1]))
  {
    var last := |c| - 1;
    assert LessonVisit(c, order, lessonTime).accepted == 0;
    assert order[..0] + [last] == [last];
    KeptOnlyClosing(0, |c|);
  }

  /** A single candidate is the closing pose, kept alone with its own time. */
  lemma SelectSingleCandidate(c: seq<Asana>, lessonTime: real)
    requires |c| == 1
    ensures IsVisitOrder([], 0)
    ensures Select(c, [], lessonTime) == Selection(c, Time(c[0]))
  {
    assert Kept(1, 1, [0]) == [];
    assert SelectedIndices(c, [], lessonTime) == [0];
  }

  // ---------------------------------------------------------------------------
  // Rescaling

  lemma {:induction false} AdjustTimesScalesTotal(asanas: seq<Asana>, lessonTime: real, elapsed: real)
    requires elapsed != 0.0
    ensures Total(AdjustTimes(asanas, lessonTime, elapsed)) == (lessonTime / elapsed) * Total(asanas)
  {
    if |asanas| > 0 {
      assert AdjustTimes(asanas, lessonTime, elapsed)[1..] == AdjustTimes(asanas[1..], lessonTime, elapsed);
      AdjustTimesScalesTotal(asanas[1..], lessonTime, elapsed);
    }
  }

  /** Over the reals, rescaling poses whose times add up to `elapsed` makes them add up to the budget. */
  lemma AdjustTimesFillsBudget(asanas: seq<Asana>, lessonTime: real, elapsed: real)
    requires elapsed != 0.0
    requires Total(asanas) == elapsed
    ensures Total(AdjustTimes(asanas, lessonTime, elapsed)) == lessonTime
  {
    AdjustTimesScalesTotal(asanas, lessonTime, elapsed);
  }

  /** Rescaling keeps every pose's total time equal to its per-side time once per side. */
  lemma AdjustTimesKeepsWellTimed(asanas: seq<Asana>, lessonTime: real, elapsed: real)
    requires elapsed != 0.0
    requires forall i :: 0 <= i < |asanas| ==> WellTimed(asanas[i])
    ensures forall i :: 0 <= i < |AdjustTimes(asanas, lessonTime, elapsed)| ==>
      WellTimed(AdjustTimes(asanas, lessonTime, elapsed)[i])
  {
  }

  // ---------------------------------------------------------------------------
  // The whole builder

  /**
   * A generated lesson lasts exactly the budget; it is left as selected when it
   * already does; it fails with a division by zero exactly when nothing elapsed
   * but the budget is not zero; and it keeps the selected poses, in order.
   */
  lemma GenerateLessonFillsBudget(c: seq<Asana>, order: seq<int>, lessonTime: real)
    requires |c| > 0 && IsVisitOrder(order, |c| - 1)
    ensures var r := GenerateLesson(c, order, lessonTime);
      var s := Select(c, order, lessonTime);
      && (r.Success? ==> Total(r.value) == lessonTime)
      && (r == Failure(DivisionByZero) <==> s.elapsed == 0.0 && lessonTime != 0.0)
      && (s.elapsed == lessonTime ==> r == Success(s.asanas))
      && (r.Success? ==> |r.value| == |s.asanas| > 0)
      && (r.Success? ==> forall i :: 0 <= i < |r.value| ==> r.value[i].spec == s.asanas[i].spec)
      && (r.Success? ==> r.value[|r.value| - 1].spec == c[|c| - 1].spec)
  {
    var s := Select(c, order, lessonTime);
    SelectElapsedIsTotal(c, order, lessonTime);
    SelectEndsWithClosingPose(c, order, lessonTime);
    if s.elapsed != lessonTime && s.elapsed != 0.0 {
      AdjustTimesFillsBudget(s.asanas, lessonTime, s.elapsed);
    }
  }

  /** Every pose of a generated lesson still satisfies the per-side/total relation. */
  lemma GenerateLessonKeepsWellTimed(c: seq<Asana>, order: seq<int>, lessonTime: real)
    requires |c| > 0 && IsVisitOrder(order, |c| - 1)
    requires forall i :: 0 <= i < |c| ==> WellTimed(c[i])
    ensures var r := GenerateLesson(c, order, lessonTime);
      r.Success? ==> forall i :: 0 <= i < |r.value| ==> WellTimed(r.value[i])
  {
    var s := Select(c, order, lessonTime);
    assert forall i :: 0 <= i < |s.asanas| ==> WellTimed(s.asanas[i]);
  }
}

=== FILE: rounding.dfy ===
/**
 * Python's built-in `round` applied to a number and converted with `int`:
 * the nearest integer, with ties going to the even neighbour ("banker's rounding").
 */
module Rounding {

  /** `n` is a nearest integer to `x`, and an even one when `x` lies exactly halfway. */
  ghost predicate IsRoundHalfEven(x: real, n: int) {
    && -0.5 <= x - n as real <= 0.5
    && ((x - n as real == 0.5 || x - n as real == -0.5) ==> n % 2 == 0)
  }

  function RoundHalfEven(x: real): (n: int)
    ensures IsRoundHalfEven(x, n)
  {
    var f := x.Floor;
    var d := x - f as real;
    if d < 0.5 then f
    else if d > 0.5 then f + 1
    else if f % 2 == 0 then f
    else f + 1
  }

  /** Round-half-even is fully determined by its characterisation. */
  lemma RoundHalfEvenUnique(x: real, n: int)
    requires IsRoundHalfEven(x, n)
    ensures n == RoundHalfEven(x)
  {
  }

  /** Shifting by an even integer commutes with rounding, so `round(x - 60 * k) + 60 * k == round(x)`. */
  lemma RoundShiftEven(x: real, k: int)
    ensures RoundHalfEven(x + (2 * k) as real) == RoundHalfEven(x) + 2 * k
  {
    var n := RoundHalfEven(x);
    assert IsRoundHalfEven(x + (2 * k) as real, n + 2 * k);
    RoundHalfEvenUnique(x + (2 * k) as real, n + 2 * k);
  }

  /** A sample drawn between two integer bounds rounds to an integer between the same bounds. */
  lemma RoundWithinBounds(lo: int, hi: int, x: real)
    requires lo as real <= x <= hi as real
    ensures lo <= RoundHalfEven(x) <= hi
  {
  }

  /** Rounding never reverses the order of two values. */
  lemma RoundMonotone(x: real, y: real)
    requires x <= y
    ensures RoundHalfEven(x) <= RoundHalfEven(y)
  {
  }
}

=== FILE: schedule.dfy ===
/**
 * Choosing the weekly schedule file (`load_weekly_schedule`): among the `.json`
 * names of the form `weekly_A_B.json`, the first whose inclusive week range
 * `[A, B]` contains the requested week.
 */
module Schedule {
  import opened Wrappers
  import opened Decimal
  import opened Text

  predicate EndsWith(s: string, suffix: string) {
    |s| >= |suffix| && s[|s| - |suffix|..] == suffix
  }

  /** `[f for f in files if f.endswith('.json')]`. */
  function JsonFiles(files: seq<string>): (r: seq<string>)
    ensures forall f :: f in r <==> f in files && EndsWith(f, ".json")
  {
    if |files| == 0 then []
    else (if EndsWith(files[0], ".json") then [files[0]] else []) + JsonFiles(files[1..])
  }

  /**
   * `s.replace(pat, '')`: the non-overlapping occurrences of `pat`, found left to
   * right, removed. Characters are only dropped, never added.
   */
  function RemoveAll(s: string, pat: string): (r: string)
    requires |pat| > 0
    ensures |r| <= |s|
    ensures forall c :: c in r ==> c in s
    decreases |s|
  {
    if |s| < |pat| then s
    else if s[..|pat|] == pat then RemoveAll(s[|pat|..], pat)
    else [s[0]] + RemoveAll(s[1..], pat)
  }

  /** `[int(x) for x in parts]`, or None where Python raises ValueError. */
  function ParseAll(parts: seq<string>): (r: Option<seq<int>>)
    ensures r.Some? ==> |r.value| == |parts| && forall i :: 0 <= i < |parts| ==> ParseInt(parts[i]) == Some(r.value[i])
    ensures r.None? ==> exists i :: 0 <= i < |parts| && ParseInt(parts[i]).None?
  {
    if |parts| == 0 then Some([])
    else
      match ParseInt(parts[0])
      case None => None
      case Some(v) =>
        match ParseAll(parts[1..])
        case None => None
        case Some(vs) => Some([v] + vs)
  }

  datatype WeekSpan = WeekSpan(first: int, last: int)

  /** The inclusive test `weeks[0] <= week <= weeks[1]` on a range that has both ends. */
  predicate InSpan(span: WeekSpan, week: int) {
    span.first <= week <= span.last
  }

  /**
   * `[int(x) for x in week_str.split('_')]` for a schedule name, where `week_str`
   * is the name without "weekly_" and ".json"; None where `int()` raises.
   */
  function ScheduleWeeks(name: string): (r: Option<seq<int>>)
    ensures r.Some? ==> |r.value| > 0
  {
    var stem := RemoveAll(RemoveAll(name, "weekly_"), ".json");
    ParseAll(Split(stem, '_'))
  }

  /** What the loop does with one name: load it, pass over it, or raise. */
  datatype Step = Take | Pass | Raise

  /**
   * `weeks[0] <= week <= weeks[1]` as Python evaluates the chain: `weeks[1]` is
   * looked at only once `weeks[0] <= week` holds, and raises IndexError when there
   * is no second piece. Pieces after the second are never looked at.
   */
  function TestWeeks(weeks: seq<int>, week: int): (step: Step)
    requires |weeks| > 0
    ensures step == Take <==> |weeks| >= 2 && InSpan(WeekSpan(weeks[0], weeks[1]), week)
    ensures step == Raise <==> |weeks| == 1 && weeks[0] <= week
  {
    if !(weeks[0] <= week) then Pass
    else if |weeks| < 2 then Raise
    else if week <= weeks[1] then Take
    else Pass
  }

  /** One pass of the loop body on `name`. */
  function Examine(name: string, week: int): Step
  {
    match ScheduleWeeks(name)
    case None => Raise
    case Some(weeks) => TestWeeks(weeks, week)
  }

  predicate Covers(name: string, week: int) {
    Examine(name, week) == Take
  }

  /** A name the loop reads without raising and then passes over. */
  predicate Misses(name: string, week: int) {
    Examine(name, week) == Pass
  }

  datatype Lookup =
    | Found(file: string)      // the schedule to load
    | NotFound                 // "Schedule not found" and exit
    | Malformed(file: string)  // int() or the index of weeks[1] raises on this name

  /**
   * The `for schedule in schedules` loop: the first name covering `week` is found;
   * a name whose test raises stops it; running out of names is "not found".
   */
  function MatchSchedule(schedules: seq<string>, week: int): (r: Lookup)
  {
    if |schedules| == 0 then NotFound
    else
      match Examine(schedules[0], week)
      case Take => Found(schedules[0])
      case Raise => Malformed(schedules[0])
      case Pass => MatchSchedule(schedules[1..], week)
  }

  /** Every name before position `i` is read and passed over. */
  predicate MissedBefore(schedules: seq<string>, week: int, i: int)
    requires 0 <= i <= |schedules|
  {
    forall j :: 0 <= j < i ==> Misses(schedules[j], week)
  }

  /**
   * The loop's outcome is decided by the first name it does not pass over: found
   * if that name covers the week, malformed if its test raises, and "not found"
   * exactly when every name is passed over.
   */
  lemma {:induction false} MatchScheduleIsFirstHit(schedules: seq<string>, week: int)
    ensures var r := MatchSchedule(schedules, week);
      && (r == NotFound <==> MissedBefore(schedules, week, |schedules|))
      && (forall i :: 0 <= i < |schedules| && MissedBefore(schedules, week, i) ==>
            && (Covers(schedules[i], week) ==> r == Found(schedules[i]))
            && (Examine(schedules[i], week) == Raise ==> r == Malformed(schedules[i])))
      && (!r.NotFound? ==>
            exists i :: 0 <= i < |schedules| && schedules[i] == r.file && MissedBefore(schedules, week, i))
    decreases |schedules|
  {
    if |schedules| > 0 && Misses(schedules[0], week) {
      var tail := schedules[1..];
      var r := MatchSchedule(tail, week);
      MatchScheduleIsFirstHit(tail, week);
      assert MatchSchedule(schedules, week) == r;
      assert MissedBefore(schedules, week, |schedules|) <==> MissedBefore(tail, week, |tail|) by {
        if MissedBefore(tail, week, |tail|) {
          assert forall j :: 1 <= j < |schedules| ==> schedules[j] == tail[j - 1];
        }
      }
      forall i | 0 < i < |schedules| && MissedBefore(schedules, week, i)
        ensures MissedBefore(tail, week, i - 1)
      {
        assert forall j :: 0 <= j < i - 1 ==> tail[j] == schedules[j + 1];
      }
      if !r.NotFound? {
        var i :| 0 <= i < |tail| && tail[i] == r.file && MissedBefore(tail, week, i);
        assert schedules[i + 1] == r.file;
        assert forall j :: 1 <= j < i + 1 ==> schedules[j] == tail[j - 1];
        assert MissedBefore(schedules, week, i + 1);
      }
    } else if |schedules| > 0 {
      assert MissedBefore(schedules, week, 0);
    }
  }

  /** The pure part of `load_weekly_schedule`, given the directory listing. */
  function FindSchedule(files: seq<string>, week: int): Lookup
  {
    MatchSchedule(JsonFiles(files), week)
  }

  /** A schedule file name around the text `stem`. */
  function StemFileName(stem: string): string {
    "weekly_" + stem + ".json"
  }

  /** The name a schedule for weeks `a` through `b` is stored under. */
  function ScheduleFileName(a: int, b: int): string {
    StemFileName(IntToString(a) + "_" + IntToString(b))
  }

  /** A name that gives a single week, `a`, and no end week. */
  function SingleWeekFileName(a: int): string {
    StemFileName(IntToString(a))
  }

  // ---------------------------------------------------------------------------
  // `str.replace(pat, '')`

  /** `pat` occurs in `s` starting at index `i`. */
  predicate OccursAt(s: string, pat: string, i: int) {
    0 <= i && i + |pat| <= |s| && s[i..i + |pat|] == pat
  }

  /** An occurrence in the text after its first character is one in the text itself. */
  lemma OccursInTail(s: string, pat: string, i: int)
    requires |s| > 0 && OccursAt(s[1..], pat, i)
    ensures OccursAt(s, pat, i + 1)
  {
    assert s[1..][i..i + |pat|] == s[i + 1..i + 1 + |pat|];
  }

  /** Text that does not start with `pat` keeps its first character. */
  lemma RemoveAllKeepsHead(s: string, pat: string)
    requires |pat| > 0 && |s| > 0 && !OccursAt(s, pat, 0)
    ensures RemoveAll(s, pat) == [s[0]] + RemoveAll(s[1..], pat)
  {
    if |s| >= |pat| {
      assert s[..|pat|] == s[0..|pat|];
    }
  }

  /** Text with no occurrence of `pat` is left as it is. */
  lemma {:induction false} RemoveAllNoOccurrence(s: string, pat: string)
    requires |pat| > 0
    requires forall i :: !OccursAt(s, pat, i)
    ensures RemoveAll(s, pat) == s
    decreases |s|
  {
    if |s| > 0 {
      RemoveAllKeepsHead(s, pat);
      forall i
        ensures !OccursAt(s[1..], pat, i)
      {
        if OccursAt(s[1..], pat, i) {
          OccursInTail(s, pat, i);
        }
      }
      RemoveAllNoOccurrence(s[1..], pat);
      assert s == [s[0]] + s[1..];
    }
  }

  /** Text that starts with `pat` loses it, and the scan goes on after it. */
  lemma RemoveAllDropsHead(pat: string, v: string)
    requires |pat| > 0
    ensures RemoveAll(pat + v, pat) == RemoveAll(v, pat)
  {
    var w := pat + v;
    assert w[..|pat|] == pat && w[|pat|..] == v;
  }

  /** No occurrence starts in `u` before `pat` is appended: still so after dropping `u`'s first character. */
  lemma NoEarlierOccurrenceInTail(u: string, pat: string)
    requires |u| > 0
    requires forall i :: 0 <= i < |u| ==> !OccursAt(u + pat, pat, i)
    ensures forall i :: 0 <= i < |u| - 1 ==> !OccursAt(u[1..] + pat, pat, i)
  {
    var h := u + pat;
    assert h[1..] == u[1..] + pat;
    forall i | 0 <= i < |u| - 1
      ensures !OccursAt(u[1..] + pat, pat, i)
    {
      if OccursAt(h[1..], pat, i) {
        OccursInTail(h, pat, i);
      }
    }
  }

  /** Putting back the first character of `u` in front of its tail. */
  lemma ConsTail(u: string, a: string, b: string, r: string)
    requires |u| > 0 && a == [u[0]] + b && b == u[1..] + r
    ensures a == u + r
  {
    assert u == [u[0]] + u[1..];
  }

  /** Text that does not start with `pat` (as `u + pat` does not) keeps its first character. */
  lemma FirstOccurrenceStep(u: string, pat: string, v: string)
    requires |pat| > 0 && |u| > 0 && !OccursAt(u + pat, pat, 0)
    ensures RemoveAll(u + pat + v, pat) == [u[0]] + RemoveAll(u[1..] + pat + v, pat)
  {
    var w, h := u + pat + v, u + pat;
    assert w[0..|pat|] == h[0..|pat|];
    RemoveAllKeepsHead(w, pat);
    assert w[1..] == u[1..] + pat + v;
  }

  /**
   * The first occurrence of `pat`, found scanning left to right, is removed and the
   * scan resumes right after it.
   */
  lemma {:induction false} RemoveAllFirstOccurrence(u: string, pat: string, v: string)
    requires |pat| > 0
    requires forall i :: 0 <= i < |u| ==> !OccursAt(u + pat, pat, i)
    ensures RemoveAll(u + pat + v, pat) == u + RemoveAll(v, pat)
    decreases |u|
  {
    if |u| == 0 {
      assert u + pat + v == pat + v;
      RemoveAllDropsHead(pat, v);
    } else {
      FirstOccurrenceStep(u, pat, v);
      NoEarlierOccurrenceInTail(u, pat);
      RemoveAllFirstOccurrence(u[1..], pat, v);
      ConsTail(u, RemoveAll(u + pat + v, pat), RemoveAll(u[1..] + pat + v, pat), RemoveAll(v, pat));
    }
  }

  /** An occurrence that starts within the first `n` characters puts the first character of `pat` among them. */
  lemma OccurrenceStartsWithHead(s: string, pat: string, i: int, n: int)
    requires |pat| > 0 && OccursAt(s, pat, i) && i < n <= |s|
    ensures pat[0] in s[..n]
  {
    assert s[i..i + |pat|][0] == s[i] == s[..n][i];
  }

  /** A leading `pat` whose first character does not occur in the rest is stripped to exactly the rest. */
  lemma RemoveAllLeading(pat: string, rest: string)
    requires |pat| > 0 && pat[0] !in rest
    ensures RemoveAll(pat + rest, pat) == rest
  {
    assert rest[..|rest|] == rest;
    forall i
      ensures !OccursAt(rest, pat, i)
    {
      if OccursAt(rest, pat, i) {
        OccurrenceStartsWithHead(rest, pat, i, |rest|);
      }
    }
    RemoveAllNoOccurrence(rest, pat);
    RemoveAllDropsHead(pat, rest);
  }

  /** A trailing `pat` whose first character does not occur before it is stripped to exactly what precedes it. */
  lemma RemoveAllTrailing(s: string, pat: string)
    requires |pat| > 0 && pat[0] !in s
    ensures RemoveAll(s + pat, pat) == s
  {
    assert (s + pat)[..|s|] == s;
    forall i | 0 <= i < |s|
      ensures !OccursAt(s + pat, pat, i)
    {
      if OccursAt(s + pat, pat, i) {
        OccurrenceStartsWithHead(s + pat, pat, i, |s|);
      }
    }
    RemoveAllFirstOccurrence(s, pat, []);
    assert s + pat + [] == s + pat;
  }

  // ---------------------------------------------------------------------------
  // Schedule file names

  /** The text of a week number holds no letter, dot or underscore. */
  lemma NumberTextIsPlain(i: int, c: char)
    requires c == 'w' || c == '.' || c == '_'
    ensures c !in IntToString(i)
  {
  }

  /** Neither stem character occurs in the text of a week span. */
  lemma StemHasNo(a: int, b: int, c: char)
    requires c == 'w' || c == '.'
    ensures c !in IntToString(a) + "_" + IntToString(b)
  {
    NumberTextIsPlain(a, c);
    NumberTextIsPlain(b, c);
  }

  /** Both `replace` calls strip exactly the prefix and suffix from a stem that holds neither 'w' nor '.'. */
  lemma StemOfStemFileName(stem: string)
    requires 'w' !in stem && '.' !in stem
    ensures EndsWith(StemFileName(stem), ".json")
    ensures RemoveAll(RemoveAll(StemFileName(stem), "weekly_"), ".json") == stem
  {
    var rest := stem + ".json";
    assert StemFileName(stem) == "weekly_" + rest;
    assert 'w' !in rest;
    RemoveAllLeading("weekly_", rest);
    RemoveAllTrailing(stem, ".json");
    assert StemFileName(stem)[|StemFileName(stem)| - 5..] == ".json";
  }

  lemma SplitStem(a: int, b: int)
    ensures Split(IntToString(a) + "_" + IntToString(b), '_') == [IntToString(a), IntToString(b)]
  {
    var sa, sb := IntToString(a), IntToString(b);
    assert '_' !in sa && '_' !in sb;
    SplitAtSeparator(sa, '_', sb);
    assert sa + "_" + sb == sa + ['_'] + sb;
    SplitWithoutSeparator(sb, '_');
  }

  lemma ParseAllCons(parts: seq<string>, v: int, vs: seq<int>)
    requires |parts| > 0 && ParseInt(parts[0]) == Some(v) && ParseAll(parts[1..]) == Some(vs)
    ensures ParseAll(parts) == Some([v] + vs)
  {
  }

  lemma ParseOne(a: int)
    ensures ParseAll([IntToString(a)]) == Some([a])
  {
    IntToStringRoundTrip(a);
    assert ParseAll([]) == Some([]);
    assert [IntToString(a)][1..] == [];
    ParseAllCons([IntToString(a)], a, []);
    assert [a] + [] == [a];
  }

  lemma ParseStem(a: int, b: int)
    ensures ParseAll([IntToString(a), IntToString(b)]) == Some([a, b])
  {
    var sa, sb := IntToString(a), IntToString(b);
    IntToStringRoundTrip(a);
    ParseOne(b);
    assert [sa, sb][1..] == [sb];
    ParseAllCons([sa, sb], a, [b]);
    assert [a] + [b] == [a, b];
  }

  /** The stored name of a schedule for weeks `a` through `b` reads back as those two weeks. */
  lemma WeeksOfFileName(a: int, b: int)
    ensures EndsWith(ScheduleFileName(a, b), ".json")
    ensures ScheduleWeeks(ScheduleFileName(a, b)) == Some([a, b])
  {
    StemHasNo(a, b, 'w');
    StemHasNo(a, b, '.');
    StemOfStemFileName(IntToString(a) + "_" + IntToString(b));
    SplitStem(a, b);
    ParseStem(a, b);
  }

  /** A range-named schedule is loaded exactly when its inclusive range holds the week. */
  lemma ExamineFileName(a: int, b: int, week: int)
    ensures Examine(ScheduleFileName(a, b), week) == if InSpan(WeekSpan(a, b), week) then Take else Pass
  {
    WeeksOfFileName(a, b);
  }

  /**
   * A name with a single week is passed over when that week is after the requested
   * one (the chained comparison stops before `weeks[1]`) and raises otherwise.
   */
  lemma ExamineSingleWeekFileName(a: int, week: int)
    ensures EndsWith(SingleWeekFileName(a), ".json")
    ensures ScheduleWeeks(SingleWeekFileName(a)) == Some([a])
    ensures Examine(SingleWeekFileName(a), week) == if a <= week then Raise else Pass
  {
    NumberTextIsPlain(a, 'w');
    NumberTextIsPlain(a, '.');
    NumberTextIsPlain(a, '_');
    StemOfStemFileName(IntToString(a));
    SplitWithoutSeparator(IntToString(a), '_');
    ParseOne(a);
  }

  /** `weekly_10.json` before `weekly_1_5.json`: week 3 passes over the first and loads the second. */
  lemma SingleWeekNamePassedOver()
    ensures MatchSchedule([SingleWeekFileName(10), ScheduleFileName(1, 5)], 3) == Found(ScheduleFileName(1, 5))
    ensures MatchSchedule([SingleWeekFileName(2), ScheduleFileName(1, 5)], 3) == Malformed(SingleWeekFileName(2))
  {
    ExamineSingleWeekFileName(10, 3);
    ExamineSingleWeekFileName(2, 3);
    ExamineFileName(1, 5, 3);
    var names := [SingleWeekFileName(10), ScheduleFileName(1, 5)];
    assert names[1..] == [ScheduleFileName(1, 5)];
  }

  /** Filtering a listing in two parts filters each part and keeps them in listing order. */
  lemma {:induction false} JsonFilesAppend(a: seq<string>, b: seq<string>)
    ensures JsonFiles(a + b) == JsonFiles(a) + JsonFiles(b)
    decreases |a|
  {
    if |a| == 0 {
      assert a + b == b;
    } else {
      assert (a + b)[0] == a[0] && (a + b)[1..] == a[1..] + b;
      JsonFilesAppend(a[1..], b);
    }
  }

  lemma {:induction false} JsonFilesKeepsJson(files: seq<string>)
    requires forall i :: 0 <= i < |files| ==> EndsWith(files[i], ".json")
    ensures JsonFiles(files) == files
  {
    if |files| > 0 {
      JsonFilesKeepsJson(files[1..]);
      assert files == [files[0]] + files[1..];
    }
  }

  function FileNames(spans: seq<WeekSpan>): (names: seq<string>)
    ensures |names| == |spans|
  {
    seq(|spans|, i requires 0 <= i < |spans| => ScheduleFileName(spans[i].first, spans[i].last))
  }

  /** What the lookup sees in names written after their week ranges. */
  lemma FileNamesReadBack(spans: seq<WeekSpan>, names: seq<string>, week: int)
    requires names == FileNames(spans)
    ensures JsonFiles(names) == names
    ensures forall i :: 0 <= i < |spans| ==> ScheduleWeeks(names[i]) == Some([spans[i].first, spans[i].last])
    ensures forall i :: 0 <= i <= |spans| ==>
      (MissedBefore(names, week, i) <==> forall j :: 0 <= j < i ==> !InSpan(spans[j], week))
  {
    forall i | 0 <= i < |spans|
      ensures EndsWith(names[i], ".json") && ScheduleWeeks(names[i]) == Some([spans[i].first, spans[i].last])
      ensures Examine(names[i], week) == if InSpan(spans[i], week) then Take else Pass
    {
      WeeksOfFileName(spans[i].first, spans[i].last);
      ExamineFileName(spans[i].first, spans[i].last, week);
    }
    JsonFilesKeepsJson(names);
  }

  /**
   * When every schedule file is named after its week range, the lookup picks the
   * first range containing the week, and reports "not found" exactly when none does.
   */
  lemma FindScheduleAmongRanges(spans: seq<WeekSpan>, week: int)
    ensures FindSchedule(FileNames(spans), week) == NotFound <==>
      forall i :: 0 <= i < |spans| ==> !InSpan(spans[i], week)
    ensures forall i ::
      (0 <= i < |spans| && InSpan(spans[i], week) && (forall j :: 0 <= j < i ==> !InSpan(spans[j], week))) ==>
        FindSchedule(FileNames(spans), week) == Found(FileNames(spans)[i])
  {
    var names := FileNames(spans);
    FileNamesReadBack(spans, names, week);
    MatchScheduleIsFirstHit(names, week);
    var r := MatchSchedule(names, week);
    assert FindSchedule(names, week) == r;
    assert r == NotFound <==> MissedBefore(names, week, |names|);
    forall i | 0 <= i < |spans| && InSpan(spans[i], week) && (forall j :: 0 <= j < i ==> !InSpan(spans[j], week))
      ensures r == Found(names[i])
    {
      assert MissedBefore(names, week, i);
      assert Covers(names[i], week);
    }
  }
}

=== FILE: text.dfy ===
/** Splitting text at a separator character and joining the pieces again. */
module Text {
  /** `s.split(sep)`: the pieces between separators, empty ones included. */
  function Split(s: string, sep: char): (parts: seq<string>)
    ensures |parts| > 0
    ensures forall i :: 0 <= i < |parts| ==> sep !in parts[i]
    decreases |s|
  {
    if |s| == 0 then [""]
    else
      var rest := Split(s[1..], sep);
      if s[0] == sep then [""] + rest
      else [[s[0]] + rest[0]] + rest[1..]
  }

  /** The pieces glued back together with the separator between them. */
  function Join(parts: seq<string>, sep: char): string
    requires |parts| > 0
  {
    if |parts| == 1 then parts[0] else parts[0] + [sep] + Join(parts[1..], sep)
  }

  /** Splitting and joining again gives back the original text. */
  lemma {:induction false} SplitJoin(s: string, sep: char)
    ensures Join(Split(s, sep), sep) == s
    decreases |s|
  {
    if |s| > 0 {
      var rest := Split(s[1..], sep);
      SplitJoin(s[1..], sep);
      if s[0] == sep {
        assert ([""] + rest)[1..] == rest;
      } else if |rest| > 1 {
        assert ([[s[0]] + rest[0]] + rest[1..])[1..] == rest[1..];
        assert s == [s[0]] + s[1..];
      } else {
        assert s == [s[0]] + s[1..];
      }
    }
  }

  lemma {:induction false} SplitWithoutSeparator(s: string, sep: char)
    requires sep !in s
    ensures Split(s, sep) == [s]
    decreases |s|
  {
    if |s| > 0 {
      assert forall c :: c in s[1..] ==> c in s;
      SplitWithoutSeparator(s[1..], sep);
      assert s == [s[0]] + s[1..];
    }
  }

  lemma {:induction false} SplitAtSeparator(a: string, sep: char, b: string)
    requires sep !in a
    ensures Split(a + [sep] + b, sep) == [a] + Split(b, sep)
    decreases |a|
  {
    if |a| == 0 {
      assert a + [sep] + b == [sep] + b;
      assert ([sep] + b)[1..] == b;
    } else {
      assert forall c :: c in a[1..] ==> c in a;
      SplitAtSeparator(a[1..], sep, b);
      assert (a + [sep] + b)[1..] == a[1..] + [sep] + b;
      assert a == [a[0]] + a[1..];
    }
  }
}

=== FILE: wrappers.dfy ===
/** Failure-compatible result types shared by the other modules. */
module Wrappers {

  datatype Option<+T> = None | Some(value: T)

  /** The outcome of an operation that the program can abort with an exception. */
  datatype Result<+R, +E> = Success(value: R) | Failure(error: E)
}
